=== FILE: README.md ===
# Storefront cart, modelled in Dafny

This project models the client-side cart of a static storefront. The cart is an ordered list of line items `{id, name, price, image, quantity}`. It is kept in browser storage under the key `"shoppingCart"`, and each line's `id` is unique. The model also covers the pages that read and change the cart:

- the storefront script: the global `addToCart` and the header badge, the product grid's card link and add button;
- two cart pages: `dist/js/cart.js`, which validates adds and asks before removing, and `js/cart.js`, which clamps at 1 and removes without asking;
- the product detail page, in its two copies: one takes the grid link's `product` parameter and drops the extension, the other takes the raw `id` parameter.

The near-duplicate copies have different policies, so each one is its own function. Lemmas relate the copies wherever they agree. `js/scripts.js` and `dist/js/scripts.js` are identical in every modelled line, so one module, `Storefront`, models both. The two detail-page copies share the quantity stepper and the guarded add button.

Storage is the `Slot` datatype: `Absent` (the key was never written, or was removed) or `Saved(cart)`. `Load(Absent)` is the empty cart. Prices are integer cents. A confirmation dialog is a pending `Dialog` state that a later yes/no `Reply` resolves. The quantity field of the detail page is `Option<int>`, where `None` stands for `NaN` from `parseInt`.

The invariant every page keeps is `Store.Valid`: ids are unique and every quantity is at least 1. The badge number is the sum of the quantities. The subtotal is the sum of price times quantity, and the total equals the subtotal.

Modules: `Store` (store.dfy), `Catalog` (catalog.dfy), `Storefront` (storefront.dfy), `GridLink` (grid_link.dfy, the grid's card links), `Url` (url.dfy, the browser's reading of a link's query through `URLSearchParams`), `ProductDetail` (product_detail.dfy), `CartPage` (cart_page.dfy, the dist cart page), `SimpleCartPage` (simple_cart_page.dfy, the js cart page).

## Model

| member | source | states |
|---|---|---|
| Store.Load | dist/js/cart.js:2-4 | an absent storage key reads as the empty cart; a saved cart reads back as saved |
| Store.Save | dist/js/cart.js:7-9 | saving writes the whole cart: reading back gives exactly the cart saved, and the key is then present |
| Store.FindIndex | dist/js/cart.js:150 | the result is the first index whose line has the id, and there is none exactly when no line has it |
| Store.RemoveId | dist/js/cart.js:178 | the filtered cart has no line with the id and keeps exactly the other lines; it is shorter exactly when the id was present |
| Store.CountAtLeastLength | dist/js/cart.js:14 | with every quantity at least 1 the unit count is at least the number of lines, so it is 0 exactly when the cart is empty |
| Store.RemoveIdIsSplice | js/cart.js:108 | with unique ids, filtering an id out equals splicing out the one line at its first index, the other lines keeping their order |
| Store.FindIndexAppend | js/scripts.js:174-181 | appending a line leaves an earlier match where it was; an id not yet present is then found at the new last index |
| Catalog.ItemOf | js/scripts.js:181 | a new line copies the product's id, name, price and image and carries the given quantity |
| Catalog.FindProduct | js/scripts.js:109 | the result is the first catalog product whose id equals the given id exactly; none exactly when no product has that id |
| Catalog.FindProductOwnId | dist/js/product-detail.js:23 | in a catalog with distinct ids, looking a product up by its own id finds that product |
| Storefront.AddToCart | js/scripts.js:168-185 | always saves; an id already present gets `quantity` more units on its first line and nothing else changes; a new id is appended as the last line with that quantity |
| Storefront.AddToCartKeepsValid | js/scripts.js:174-185 | adding keeps ids unique, and keeps every quantity at least 1 when the added quantity is at least 1 |
| Storefront.AddToCartCount | dist/js/scripts.js:211-219 | the unit count grows by exactly the quantity added |
| Storefront.AddToCartQuantities | dist/js/scripts.js:211-215 | with unique ids, the added id ends up present with its units raised by the quantity, and every other id's units are unchanged |
| Storefront.RepeatedAddsAccumulate | js/scripts.js:174-182 | any run of adds of one product leaves exactly one line for it holding its prior units plus the sum of the quantities added; other ids' units are unchanged |
| Storefront.NavBadge | js/scripts.js:192-214 | the badge is shown only with a positive number |
| Storefront.NavBadgeHiddenIffEmpty | dist/js/scripts.js:231-259 | with positive quantities the badge is hidden exactly when the cart is empty, and otherwise shows the sum of the quantities |
| Storefront.AddToCartRefreshesBadge | dist/js/scripts.js:223-226 | the cart is saved before the badge refresh, so the badge afterwards shows the old count plus the quantity added |
| GridLink.GridLinkParam | js/scripts.js:54 | the card link's value is the id followed by a '.' and the extension |
| Storefront.GridAddClick | js/scripts.js:105-111 | a card's add button leaves the store alone when no catalog product has the card's id; otherwise one unit of the catalog's first product with that id is added: its existing line gains exactly one unit with every other field and line kept, or a copy of the product (id, name, price, image) with quantity 1 is appended after the unchanged lines |
| Storefront.GridAddClickAddsOne | dist/js/scripts.js:133-140 | a grid add adds exactly one unit of the card's id, touches no other id's units, and keeps the cart invariant |
| Url.Before | js/product-detail.js:12 | the result is the longest prefix holding no separator, so it is followed by the separator or it is the whole text |
| Url.Split | js/product-detail.js:12 | no piece holds the separator, the first piece is the text before the first separator, and there is one piece exactly when the text holds no separator |
| Url.SplitJoin | js/product-detail.js:12 | joining the pieces with the separator gives back the text, so splitting loses nothing |
| Url.PlusToSpace | js/product-detail.js:3 | form decoding leaves no '+', keeps the length, and changes the text exactly when it held a '+' |
| Url.PairRoundTrip | js/product-detail.js:3-4 | a piece "name=value" reads back as that name and value when the name holds no '=' and neither side a '+' |
| Url.ParamsNames | js/product-detail.js:3-4 | the parameter names present are exactly the names of the non-empty pieces |
| Url.ParamsFirstWins | js/product-detail.js:4 | `get` answers with the value of the first piece of that name, whatever pieces follow |
| Url.ParseSearch | js/product-detail.js:3 | a non-empty query text without '&' reads as exactly its one pair |
| Url.SingleParam | js/product-detail.js:3-4 | "name=value" reads as exactly that one parameter when the name holds no '=' and neither side '&' or '+' |
| Url.TwoParams | js/product-detail.js:3-4 | "n1=v1&n2=v2" reads as exactly those two parameters when the names differ |
| Url.Search | js/product-detail.js:3 | the fragment starts at the first '#' and the query at the first '?' before it: the query text holds no '#', and is empty when the link has no '?' or a '#' comes before its first '?' |
| Url.SearchOfLink | js/product-detail.js:3 | the query text of "page?query" is the query itself when the page part holds neither '?' nor '#' and the query no '#' |
| ProductDetail.GridLinkQuery | dist/js/scripts.js:72 | the parameters the detail page reads from a card's link: exactly one, `product`, for an id without '&'; for a URL-safe id it holds the id followed by ".png" |
| ProductDetail.GridLinkParsed | js/scripts.js:54 | for an id without '&', the one parameter holds the link's value cut at any '#' with '+' read as a space |
| ProductDetail.GridLinkSecondParam | dist/js/scripts.js:72 | the link of an id "<a>&id=<b>" carries two parameters: `product` = a and `id` = "<b>.png" |
| ProductDetail.GridLinkRoundTrip | js/product-detail.js:11-12 | splitting a grid link's value back gives the id exactly when the id itself holds no '.' |
| ProductDetail.Lookup | dist/js/product-detail.js:21-31 | a product is shown exactly when a catalog is loaded and holds that id, and the product shown is the catalog's first product with that id, as `find` returns |
| ProductDetail.ResolveByLink | js/product-detail.js:3-23 | a missing or empty `product` parameter is not found; otherwise the page shows a product exactly when the catalog holds the id before the first '.', and the product shown is the catalog's first with that id, as `find` returns |
| ProductDetail.ResolveById | dist/js/product-detail.js:4-31 | a missing or empty `id` parameter is not found; otherwise the raw value is the id, and a product is shown exactly when the catalog holds it, and it is the catalog's first with that id, as `find` returns |
| ProductDetail.GridLinkOpensProduct | js/product-detail.js:4-23 | with distinct catalog ids, following a grid card's link opens that card's product when its id holds no '.' and is URL-safe (no '&', '#', '+', '%', tab or newline) |
| ProductDetail.GridLinkPlusNotFound | js/product-detail.js:3-12 | a card whose id holds a '+' (and no '&', '#' or '.') links to the not-found view, because the '+' arrives as a space |
| ProductDetail.DistGridLinkNeverResolves | dist/js/product-detail.js:5 | every grid link whose id holds no '&' shows the not-found view on the dist copy of the page, whatever the catalog |
| ProductDetail.DistGridLinkAmpersandOpens | dist/js/product-detail.js:4-16 | a card id "<a>&id=<b>" makes the dist copy of the page read `id` = "<b>.png" and show the catalog product of that id |
| ProductDetail.DistGridLinkExample | dist/js/scripts.js:72 | for a catalog holding product "01", its grid link opens it on one copy of the page and shows not-found on the other |
| ProductDetail.StepDown | js/product-detail.js:87-92 | "-" changes the value only when it is above 1, and then by exactly one; a value of at least 1 stays at least 1 |
| ProductDetail.StepUp | js/product-detail.js:95-98 | "+" adds exactly one to a number (over unbounded integers; see Left out); a field that reads as NaN stays NaN |
| ProductDetail.AddClick | js/product-detail.js:101-104 | the cart is untouched unless the quantity is a number above 0 and `addToCart` is loaded; then the page's own product has a line: an existing line gains exactly that quantity with its other fields and the other lines kept, or a copy of the product (id, name, price, image) with that quantity is appended; the count grows by that quantity, and with unique ids that product's units rise by it while every other id's stay the same; the cart invariant is kept |
| ProductDetail.SessionKeepsInvariants | dist/js/product-detail.js:103-123 | after any run of presses, a quantity field that started at 1 or more is still at 1 or more, and a valid cart is still valid |
| CartPage.AddProductToCart | dist/js/cart.js:26-44 | a missing product, or a missing id, name, image or price, leaves the store untouched; otherwise one unit is added to the first line with that id, or a new last line of quantity 1 is appended |
| CartPage.AddProductKeepsValid | dist/js/cart.js:32-41 | an add keeps the cart invariant and raises the count by one exactly when the product is accepted |
| CartPage.AddProductAgreesWithAddToCart | dist/js/cart.js:33-38 | for a complete catalog product, this page's add does the same as the storefront's `addToCart` with the default quantity 1 |
| CartPage.HeaderBadge | dist/js/cart.js:12-23 | the badge is visible only with a positive number |
| CartPage.HeaderBadgeAgrees | dist/js/cart.js:14-20 | the badge text is the unit count; it is visible exactly when the storefront's badge is shown, with the same number, and with positive quantities exactly when the cart is non-empty |
| CartPage.CartSummary | dist/js/cart.js:76-90 | the subtotal is the sum of price times quantity; shipping is 0 and the total equals the subtotal; checkout is disabled exactly when the cart is empty |
| CartPage.Rendered | dist/js/cart.js:129-139 | the lines drawn are exactly the stored lines that pass the check (non-empty id, name and image, positive quantity) |
| CartPage.RenderedConcat | dist/js/cart.js:128-133 | drawing keeps cart order: the lines drawn from a cart split in two are those of the first part followed by those of the second |
| CartPage.RenderedAll | dist/js/cart.js:131 | when every line passes the check, the whole cart is drawn in order |
| CartPage.Render | dist/js/cart.js:121-145 | an empty cart shows the empty message, a zero subtotal, a disabled checkout and a hidden badge; otherwise the drawn lines are exactly the renderable ones in cart order (`Rendered`), and the summary (subtotal, total, checkout flag) and badge (text and visibility) are those of the whole stored cart, skipped lines included |
| CartPage.RemoveItemFromCart | dist/js/cart.js:175-186 | an id not in the cart leaves the store unsaved; otherwise the cart is saved with every line of that id gone and all other lines kept |
| CartPage.RemoveItemSplices | dist/js/cart.js:178-182 | on a valid cart the removal splices out exactly the line found, keeps the rest in order and the invariant, and takes that line's units off the count |
| CartPage.UpdateQuantity | dist/js/cart.js:148-172 | an unknown id changes nothing; a change that would bring the line to 0 or below only opens the removal dialog and changes nothing itself; any other change moves only that line's quantity, by the change, and saves |
| CartPage.Answer | dist/js/cart.js:189-224 | a "no" (or no dialog) changes nothing; "yes" to a removal runs the removal; "yes" to clearing saves the empty cart and reports it cleared |
| CartPage.ItemClick | dist/js/cart.js:229-250 | a line without an id and a click on no control are ignored; the trash button only opens the removal dialog; an opened dialog comes with no change to the store |
| CartPage.ClearClick | dist/js/cart.js:253-279 | on an empty cart the page reports "already empty" and opens no dialog; otherwise it asks; nothing is changed before the answer |
| CartPage.Checkout | dist/js/cart.js:282-315 | an empty cart is rejected with the store untouched; otherwise the purchase is acknowledged and the empty cart is saved |
| CartPage.Next | dist/js/cart.js:188-250 | while a dialog waits, only the answer acts; an answer always closes the dialog |
| CartPage.NextKeepsValid | dist/js/cart.js:148-186 | every event on the cart page keeps ids unique and every quantity at least 1 |
| CartPage.RunKeepsValid | dist/js/cart.js:228-315 | any run of events on the cart page keeps the cart invariant |
| CartPage.DecreaseAtOneAsksFirst | dist/js/cart.js:158-166 | "-" on a line at 1 only asks; "no" leaves the line at 1, and "yes" splices it out |
| CartPage.RemoveOnlyLineExample | dist/js/cart.js:160-185 | a one-line cart at quantity 1 becomes empty after "-" and "yes", and then shows the empty message and a hidden badge |
| CartPage.AddTwiceExample | dist/js/cart.js:33-41 | adding the same 999-cent product twice gives one line of quantity 2 with subtotal and total 1998 |
| SimpleCartPage.Click | js/cart.js:84-116 | an id not in the cart returns without saving; "+" adds one to that line only; "-" takes one off that line, or sets it to 1 when it is at 1 or below, and never removes or touches another line; the trash button splices out exactly that line, the rest in order; a click on no control re-saves the cart unchanged |
| SimpleCartPage.ClickKeepsValid | js/cart.js:101-108 | every click keeps the cart invariant, and only the trash button changes the number of lines |
| SimpleCartPage.ClickCount | js/cart.js:101-109 | after a click the count is one more for "+", one less for "-" unless the line is at 1, and less by the line's units for the trash button |
| SimpleCartPage.AgreesWithDistPage | js/cart.js:101-108 | on a valid cart "+" matches the dist page and the trash button matches a confirmed removal there; "-" matches it except on a line at 1 |
| SimpleCartPage.RenderSubtotal | js/cart.js:29-41 | the subtotal accumulated line by line is the sum of price times quantity, and 0 for the empty cart |
| SimpleCartPage.RenderTotals | js/cart.js:73-78 | the subtotal and the total both show the sum of price times quantity; an empty cart shows 0 |
| SimpleCartPage.Checkout | js/cart.js:125-132 | checkout removes the storage key whatever the cart held, so the cart then reads as empty |
| SimpleCartPage.Clear | js/cart.js:150-154 | clear removes the storage key only when confirmed; otherwise the store is untouched |

## Left out

- Storage encoding: `localStorage` and the JSON encoding are the abstract `Slot`. A stored value that does not parse would make `JSON.parse` throw, and that path is not modelled. Only an absent key is handled, and it reads as the empty cart.
- Concurrency: several tabs writing the same key are not modelled. Each handler runs to completion in one page.
- Money: prices are integer cents. Floating-point arithmetic, `parseFloat` and `toFixed(2)` formatting are not modelled.
- Line items: a line has exactly the fields `id`, `name`, `price`, `image` and `quantity`. Extra fields that the object spread copies in (such as `description`) are dropped. A stored line with an undefined price cannot be expressed, so the render check's `price !== undefined` always holds.
- Presentation: DOM construction, `innerHTML` templates, scroll reveal, button-press feedback, the icon and label reverts after a timeout, and console logging.
- Page setup: the early returns when required page elements are missing, and the grid's own `typeof products` check before any card exists. Every handler is modelled as installed.
- Wishlist toggling: it changes CSS classes only and persists nothing.
- Dialogs and navigation: SweetAlert, `confirm` and `alert` are modelled only as the boolean answer and a `Notice` value. The redirect after checkout is not modelled. The re-render after a declined removal changes no state.
- CartPage.Next: a pending dialog is treated as modal, so every event except the answer is ignored until it is answered. The page itself does not enforce this.
- Storefront.NavBadge: it returns only shown-with-number or hidden. When the badge is hidden, the source leaves its old text in place, and the model does not track that text.
- ProductDetail.StepUp: quantities are unbounded integers. In the source they are JavaScript numbers: `currentValue + 1` stops changing from 2^53, and from 1e21 the field shows "1e+21", which the next `parseInt` reads as 1. `cart[i].quantity += quantity` in Storefront.AddToCart has the same limit. The model is exact only for quantities below 2^53.
- Url.ParseSearch: percent-escapes ("%XX") are not decoded, and the URL parser's removal of tabs and newlines is not modelled. GridLink.UrlSafe excludes those characters. The link lemmas either assume it or state the '&', '#' and '+' cases explicitly.
- ProductDetail.AddClick: `typeof window.addToCart === "function"` is a boolean input. The text that `parseInt` reads is modelled only as an optional integer.
- The product catalog file is not part of this model. The catalog is a parameter, and `None` stands for a catalog that is not loaded.

## Findings

| source | as written | input that shows it | evidently intended | confidence | as-written member | corrected member |
|---|---|---|---|---|---|---|
| dist/js/product-detail.js:5 | the page reads the `id` query parameter and uses its raw value as the product id | a catalog holding product "01": its grid card links to `product-detail.html?product=01.png` (dist/js/scripts.js:72), which has no `id` parameter, so the page shows "Product Not Found" | read the `product` parameter and drop the extension, as the page's own comments describe and as js/product-detail.js:4-12 does | medium (not executed; depends on the dist pages loading the dist scripts) | ProductDetail.DistGridLinkNeverResolves | ProductDetail.GridLinkOpensProduct |

=== FILE: cart_page.dfy ===
/** The cart page of dist/js/cart.js: the validating add, the header badge,
    the order summary, the render-time filter, quantity changes whose drop
    to zero must be confirmed, removal by id, and the clear and checkout
    buttons with their empty-cart guards. Each confirmation dialog is a
    pending state that a later yes/no answer resolves. */
module CartPage {
  import opened Store
  import opened Catalog
  import Storefront

  // ----- Adding -----

  /** A product as handed to addProductToCart; None is an undefined field. */
  datatype Payload = Payload(id: Option<string>, name: Option<string>, price: Option<int>, image: Option<string>)

  /** A string field that JavaScript treats as true: defined and non-empty. */
  predicate Truthy(f: Option<string>) {
    f.Some? && f.value != ""
  }

  /** The guard of addProductToCart: a product is given, its id, name and
      image are non-empty and its price is defined (a price of 0 passes). */
  predicate Accepted(p: Option<Payload>) {
    && p.Some?
    && Truthy(p.value.id)
    && Truthy(p.value.name)
    && p.value.price.Some?
    && Truthy(p.value.image)
  }

  /** The new line an accepted payload becomes: its fields and quantity 1. */
  function NewLine(p: Payload): (item: LineItem)
    requires Accepted(Some(p))
    ensures item.id == p.id.value && item.quantity == 1
  {
    LineItem(p.id.value, p.name.value, p.price.value, p.image.value, 1)
  }

  /** addProductToCart: reject an incomplete product without touching the
      store; otherwise add one unit, to the existing line or a new last line. */
  function AddProductToCart(s: Slot, p: Option<Payload>): (r: Slot)
    ensures !Accepted(p) ==> r == s
    ensures Accepted(p) ==> r.Saved?
    ensures Accepted(p) && HasId(Load(s), p.value.id.value) ==>
              BumpedAt(Load(s), r.cart, FindIndex(Load(s), p.value.id.value).value, 1)
    ensures Accepted(p) && !HasId(Load(s), p.value.id.value) ==>
              AppendedWith(Load(s), r.cart, NewLine(p.value))
  {
    if !Accepted(p) then s
    else
      var c := Load(s);
      match FindIndex(c, p.value.id.value)
      case Some(i) => Save(c[i := c[i].(quantity := c[i].quantity + 1)])
      case None => Save(c + [NewLine(p.value)])
  }

  /** An accepted add keeps the cart invariant and raises the unit count by one. */
  lemma AddProductKeepsValid(s: Slot, p: Option<Payload>)
    requires Valid(Load(s))
    ensures Valid(Load(AddProductToCart(s, p)))
    ensures Count(Load(AddProductToCart(s, p))) == Count(Load(s)) + (if Accepted(p) then 1 else 0)
  {
    if Accepted(p) {
      var c, r := Load(s), Load(AddProductToCart(s, p));
      match FindIndex(c, p.value.id.value)
      case Some(i) =>
        assert r == c[i := c[i].(quantity := c[i].quantity + 1)];
        SumUpdate(c, i, r[i], Units);
      case None =>
        assert r == c + [NewLine(p.value)];
        assert forall k :: 0 <= k < |c| ==> r[k] == c[k];
        SumAppend(c, NewLine(p.value), Units);
    }
  }

  /** The payload a catalog product makes. */
  function PayloadOf(p: Product): Payload {
    Payload(Some(p.id), Some(p.name), Some(p.price), Some(p.image))
  }

  /** For a complete catalog product the validating add of this page does the
      same as the storefront's addToCart with the default quantity 1. */
  lemma AddProductAgreesWithAddToCart(s: Slot, p: Product)
    requires p.id != "" && p.name != "" && p.image != ""
    ensures AddProductToCart(s, Some(PayloadOf(p))) == Storefront.AddToCart(s, p, 1)
  {
    assert NewLine(PayloadOf(p)) == ItemOf(p, 1);
  }

  // ----- Badge and summary -----

  /** The header count element: its text is always the unit count; it is
      shown only when that count is above 0. */
  datatype Badge = Badge(text: int, visible: bool)

  function HeaderBadge(c: Cart): (b: Badge)
    ensures b.visible ==> b.text > 0
  {
    var total := Count(c);
    Badge(total, total > 0)
  }

  /** This page's badge and the storefront's badge agree: both show the unit
      count when it is positive, both hide otherwise; on a cart with positive
      quantities that is exactly when the cart is non-empty. */
  lemma HeaderBadgeAgrees(s: Slot)
    ensures HeaderBadge(Load(s)).visible <==> Storefront.NavBadge(s).Some?
    ensures HeaderBadge(Load(s)).visible ==> Storefront.NavBadge(s).value == HeaderBadge(Load(s)).text
    ensures HeaderBadge(Load(s)).text == Count(Load(s))
    ensures PositiveQuantities(Load(s)) ==> (HeaderBadge(Load(s)).visible <==> |Load(s)| > 0)
  {
    if PositiveQuantities(Load(s)) {
      CountAtLeastLength(Load(s));
    }
  }

  /** Flat shipping cost of the order summary. */
  const Shipping: int := 0

  /** The order summary; the checkout button is disabled when the cart is empty. */
  datatype Summary = Summary(subtotal: int, shipping: int, total: int, checkoutDisabled: bool)

  /** updateCartSummary: subtotal over every stored line, total = subtotal + shipping. */
  function CartSummary(c: Cart): (m: Summary)
    ensures m.subtotal == Subtotal(c)
    ensures m.shipping == 0 && m.total == m.subtotal
    ensures m.checkoutDisabled <==> |c| == 0
  {
    var subtotal := Subtotal(c);
    Summary(subtotal, Shipping, subtotal + Shipping, |c| == 0)
  }

  // ----- Rendering -----

  /** The per-line check of renderCart: non-empty id, name and image and a
      positive quantity (the price is always defined here). */
  predicate Renderable(item: LineItem) {
    item.id != "" && item.name != "" && item.image != "" && item.quantity > 0
  }

  /** The lines renderCart draws, in cart order; the others are skipped, not deleted. */
  function Rendered(c: Cart): (r: Cart)
    ensures |r| <= |c|
    ensures forall x :: x in r <==> x in c && Renderable(x)
  {
    if |c| == 0 then []
    else if Renderable(c[0]) then [c[0]] + Rendered(c[1..])
    else Rendered(c[1..])
  }

  /** Drawing keeps cart order: the lines of a cart split in two are the
      drawn lines of the first part followed by those of the second. */
  lemma {:induction false} RenderedConcat(a: Cart, b: Cart)
    ensures Rendered(a + b) == Rendered(a) + Rendered(b)
  {
    if |a| == 0 {
      assert a + b == b;
    } else {
      assert (a + b)[0] == a[0];
      assert (a + b)[1..] == a[1..] + b;
      RenderedConcat(a[1..], b);
    }
  }

  /** A cart whose every line passes the check is drawn whole and in order. */
  lemma {:induction false} RenderedAll(c: Cart)
    requires forall k :: 0 <= k < |c| ==> Renderable(c[k])
    ensures Rendered(c) == c
  {
    if |c| > 0 {
      var t := c[1..];
      forall k | 0 <= k < |t| ensures Renderable(t[k]) {
        assert t[k] == c[k + 1];
      }
      RenderedAll(t);
      assert Renderable(c[0]);
      assert c == [c[0]] + t;
    }
  }

  /** What renderCart produces from the stored cart. */
  datatype CartView = CartView(lines: Cart, emptyMessage: bool, summary: Summary, badge: Badge)

  /** renderCart: the empty message for an empty cart, else the renderable
      lines; the summary and badge are computed over the whole stored cart,
      skipped lines included. */
  function Render(s: Slot): (v: CartView)
    ensures v.emptyMessage <==> |Load(s)| == 0
    ensures v.emptyMessage ==> v.lines == [] && v.summary.subtotal == 0 && v.summary.checkoutDisabled && !v.badge.visible
    ensures forall x :: x in v.lines <==> x in Load(s) && Renderable(x)
    ensures v.summary.subtotal == Subtotal(Load(s)) && v.badge.text == Count(Load(s))
    ensures v.lines == Rendered(Load(s))
    ensures v.summary == CartSummary(Load(s)) && v.badge == HeaderBadge(Load(s))
  {
    var c := Load(s);
    CartView(if |c| == 0 then [] else Rendered(c), |c| == 0, CartSummary(c), HeaderBadge(c))
  }

  // ----- Quantity changes, removal and the confirmation gates -----

  /** A confirmation dialog waiting for an answer. */
  datatype Dialog = NoDialog | ConfirmRemove(id: string) | ConfirmClear

  /** A message shown to the user after a handler ran. */
  datatype Notice = Quiet | AlreadyEmpty | Cleared | EmptyCheckout | PurchaseComplete

  /** The outcome of one handler: the store afterwards, the dialog it opened
      and the message it showed. */
  datatype Step = Step(slot: Slot, dialog: Dialog, notice: Notice)

  /** removeItemFromCart: filter every line of the id out and save only if
      that removed something. */
  function RemoveItemFromCart(s: Slot, id: string): (r: Slot)
    ensures !HasId(Load(s), id) ==> r == s
    ensures HasId(Load(s), id) ==> r.Saved?
    ensures !HasId(Load(r), id)
    ensures forall x :: x in Load(r) <==> x in Load(s) && x.id != id
  {
    var c := Load(s);
    var kept := RemoveId(c, id);
    if |c| != |kept| then Save(kept) else s
  }

  /** With unique ids the removal splices out exactly the one line of that
      id, keeps the others in order, keeps the invariant and takes that
      line's units off the count. */
  lemma RemoveItemSplices(s: Slot, id: string)
    requires Valid(Load(s))
    requires HasId(Load(s), id)
    ensures var c, i := Load(s), FindIndex(Load(s), id).value;
            && Load(RemoveItemFromCart(s, id)) == c[..i] + c[i + 1..]
            && Count(Load(RemoveItemFromCart(s, id))) == Count(c) - c[i].quantity
            && Valid(Load(RemoveItemFromCart(s, id)))
  {
    var c, i := Load(s), FindIndex(Load(s), id).value;
    RemoveIdIsSplice(c, id, i);
    SumRemoveAt(c, i, Units);
    RemoveAtKeepsValid(c, i);
  }

  /** updateQuantity: an unknown id changes nothing; a change that would
      leave the line at 0 or below only opens the removal dialog; any other
      change sets the new quantity and saves. */
  function UpdateQuantity(s: Slot, id: string, change: int): (st: Step)
    ensures st.notice == Quiet
    ensures !HasId(Load(s), id) ==> st == Step(s, NoDialog, Quiet)
    ensures st.dialog != NoDialog ==> st.slot == s && st.dialog == ConfirmRemove(id)
    ensures st.dialog.ConfirmRemove? <==>
              HasId(Load(s), id) && Load(s)[FindIndex(Load(s), id).value].quantity + change <= 0
    ensures HasId(Load(s), id) && st.dialog == NoDialog ==>
              st.slot.Saved? && BumpedAt(Load(s), st.slot.cart, FindIndex(Load(s), id).value, change)
  {
    var c := Load(s);
    match FindIndex(c, id)
    case None => Step(s, NoDialog, Quiet)
    case Some(i) =>
      var q := c[i].quantity + change;
      if q <= 0 then Step(s, ConfirmRemove(id), Quiet)
      else Step(Save(c[i := c[i].(quantity := q)]), NoDialog, Quiet)
  }

  /** showConfirmation resolved: yes runs the pending action, no (or a
      dismissed dialog) changes nothing. */
  function Answer(s: Slot, d: Dialog, confirmed: bool): (st: Step)
    ensures st.dialog == NoDialog
    ensures !confirmed || d == NoDialog ==> st.slot == s
    ensures confirmed && d.ConfirmRemove? ==> st.slot == RemoveItemFromCart(s, d.id)
    ensures confirmed && d == ConfirmClear ==> Load(st.slot) == [] && st.slot.Saved? && st.notice == Cleared
    ensures !(confirmed && d == ConfirmClear) ==> st.notice == Quiet
  {
    match d
    case NoDialog => Step(s, NoDialog, Quiet)
    case ConfirmRemove(id) =>
      if confirmed then Step(RemoveItemFromCart(s, id), NoDialog, Quiet) else Step(s, NoDialog, Quiet)
    case ConfirmClear =>
      if confirmed then Step(Save([]), NoDialog, Cleared) else Step(s, NoDialog, Quiet)
  }

  /** The click delegation on the cart list: a line without an id is
      ignored; "-" and "+" change the quantity by one; the trash button asks
      before removing; a click elsewhere in the line does nothing. */
  function ItemClick(s: Slot, id: string, control: Control): (st: Step)
    ensures id == "" || control == Elsewhere ==> st == Step(s, NoDialog, Quiet)
    ensures control == RemoveButton && id != "" ==> st == Step(s, ConfirmRemove(id), Quiet)
    ensures st.dialog != NoDialog ==> st.slot == s
  {
    if id == "" then Step(s, NoDialog, Quiet)
    else
      match control
      case DecreaseButton => UpdateQuantity(s, id, -1)
      case IncreaseButton => UpdateQuantity(s, id, 1)
      case RemoveButton => Step(s, ConfirmRemove(id), Quiet)
      case Elsewhere => Step(s, NoDialog, Quiet)
  }

  /** The clear button: on an empty cart only report that it is already
      empty; otherwise ask before clearing. */
  function ClearClick(s: Slot): (st: Step)
    ensures st.slot == s
    ensures |Load(s)| == 0 <==> st.notice == AlreadyEmpty
    ensures |Load(s)| == 0 <==> st.dialog == NoDialog
    ensures |Load(s)| > 0 ==> st.dialog == ConfirmClear
  {
    if |Load(s)| == 0 then Step(s, NoDialog, AlreadyEmpty) else Step(s, ConfirmClear, Quiet)
  }

  /** The checkout button: an empty cart is rejected and the store left as
      it was; otherwise the purchase is acknowledged and the empty cart saved
      (the page then goes to the landing page). */
  function Checkout(s: Slot): (st: Step)
    ensures st.dialog == NoDialog
    ensures |Load(s)| == 0 <==> st.notice == EmptyCheckout
    ensures |Load(s)| == 0 ==> st.slot == s
    ensures |Load(s)| > 0 ==> st.slot == Saved([]) && st.notice == PurchaseComplete
  {
    if |Load(s)| == 0 then Step(s, NoDialog, EmptyCheckout) else Step(Save([]), NoDialog, PurchaseComplete)
  }

  // ----- The page as a state machine -----

  /** A user action on the cart page. */
  datatype Event = Click(id: string, control: Control) | ClearPressed | CheckoutPressed | Reply(confirmed: bool)

  /** The page: the store and the dialog, if any, that is waiting. */
  datatype Page = Page(slot: Slot, dialog: Dialog)

  /** One event. A waiting dialog is modal: only the answer to it acts; an
      answer with no dialog open does nothing. */
  function Next(pg: Page, e: Event): (st: Step)
    ensures pg.dialog != NoDialog && !e.Reply? ==> st == Step(pg.slot, pg.dialog, Quiet)
    ensures e.Reply? ==> st.dialog == NoDialog
  {
    match e
    case Reply(yes) => Answer(pg.slot, pg.dialog, yes)
    case _ =>
      if pg.dialog != NoDialog then Step(pg.slot, pg.dialog, Quiet)
      else
        match e
        case Click(id, control) => ItemClick(pg.slot, id, control)
        case ClearPressed => ClearClick(pg.slot)
        case CheckoutPressed => Checkout(pg.slot)
  }

  /** Replays a run of events from a page state. */
  function Run(pg: Page, events: seq<Event>): Page
    decreases |events|
  {
    if |events| == 0 then pg
    else
      var st := Next(pg, events[0]);
      Run(Page(st.slot, st.dialog), events[1..])
  }

  /** A quantity change keeps the cart invariant: it either only opens the
      dialog or sets a quantity of at least 1. */
  lemma UpdateQuantityKeepsValid(s: Slot, id: string, change: int)
    requires Valid(Load(s))
    ensures Valid(Load(UpdateQuantity(s, id, change).slot))
  {
    var c := Load(s);
    if HasId(c, id) {
      var i := FindIndex(c, id).value;
      var q := c[i].quantity + change;
      if q > 0 {
        SetQuantityKeepsValid(c, i, q);
        assert Load(UpdateQuantity(s, id, change).slot) == c[i := c[i].(quantity := q)];
      }
    }
  }

  /** Answering a dialog keeps the cart invariant. */
  lemma AnswerKeepsValid(s: Slot, d: Dialog, confirmed: bool)
    requires Valid(Load(s))
    ensures Valid(Load(Answer(s, d, confirmed).slot))
  {
    if confirmed && d.ConfirmRemove? && HasId(Load(s), d.id) {
      RemoveItemSplices(s, d.id);
    }
  }

  /** Every event keeps the cart invariant: ids stay unique and every
      quantity stays at 1 or more. */
  lemma NextKeepsValid(pg: Page, e: Event)
    requires Valid(Load(pg.slot))
    ensures Valid(Load(Next(pg, e).slot))
  {
    match e
    case Reply(yes) =>
      AnswerKeepsValid(pg.slot, pg.dialog, yes);
    case Click(id, control) =>
      if pg.dialog == NoDialog && id != "" {
        if control == DecreaseButton {
          UpdateQuantityKeepsValid(pg.slot, id, -1);
        } else if control == IncreaseButton {
          UpdateQuantityKeepsValid(pg.slot, id, 1);
        }
      }
    case ClearPressed =>
    case CheckoutPressed =>
  }

  /** Any run of events on the cart page keeps the cart invariant. */
  lemma {:induction false} RunKeepsValid(pg: Page, events: seq<Event>)
    requires Valid(Load(pg.slot))
    ensures Valid(Load(Run(pg, events).slot))
    decreases |events|
  {
    if |events| > 0 {
      NextKeepsValid(pg, events[0]);
      var st := Next(pg, events[0]);
      RunKeepsValid(Page(st.slot, st.dialog), events[1..]);
    }
  }

  /** "-" on a line holding one unit never removes it silently: it only asks;
      answering no leaves the line at 1, answering yes splices it out. */
  lemma DecreaseAtOneAsksFirst(s: Slot, id: string)
    requires Valid(Load(s))
    requires id != "" && HasId(Load(s), id)
    requires Load(s)[FindIndex(Load(s), id).value].quantity == 1
    ensures ItemClick(s, id, DecreaseButton) == Step(s, ConfirmRemove(id), Quiet)
    ensures Answer(s, ConfirmRemove(id), false).slot == s
    ensures var c, i := Load(s), FindIndex(Load(s), id).value;
            Load(Answer(s, ConfirmRemove(id), true).slot) == c[..i] + c[i + 1..]
  {
    RemoveItemSplices(s, id);
  }

  /** A cart of one line with one unit: "-" then "yes" leaves the empty cart,
      an empty-cart view and a hidden badge. */
  lemma RemoveOnlyLineExample()
    ensures var s := Saved([LineItem("p1", "Mug", 1000, "img/p1.png", 1)]);
            var asked := Next(Page(s, NoDialog), Click("p1", DecreaseButton));
            var done := Next(Page(asked.slot, asked.dialog), Reply(true));
            && asked.dialog == ConfirmRemove("p1")
            && Load(done.slot) == []
            && Render(done.slot).emptyMessage
            && !Render(done.slot).badge.visible
  {
    var s := Saved([LineItem("p1", "Mug", 1000, "img/p1.png", 1)]);
    assert FindIndex(Load(s), "p1") == Some(0);
    assert RemoveId(Load(s), "p1") == [];
  }

  /** Adding the same product twice gives one line of quantity 2 whose
      subtotal is twice the price (999 cents twice is 1998). */
  lemma AddTwiceExample()
    ensures var p := Some(Payload(Some("p1"), Some("Mug"), Some(999), Some("img/p1.png")));
            var s := AddProductToCart(AddProductToCart(Absent, p), p);
            && Load(s) == [LineItem("p1", "Mug", 999, "img/p1.png", 2)]
            && CartSummary(Load(s)).subtotal == 1998
            && CartSummary(Load(s)).total == 1998
  {
    var p := Some(Payload(Some("p1"), Some("Mug"), Some(999), Some("img/p1.png")));
    var s1 := AddProductToCart(Absent, p);
    assert Load(s1) == [LineItem("p1", "Mug", 999, "img/p1.png", 1)];
    assert FindIndex(Load(s1), "p1") == Some(0);
  }
}

=== FILE: catalog.dfy ===
/** The static product catalog the pages read (loaded before the page
    scripts run) and the line item a product becomes when it is added. */
module Catalog {
  import opened Store

  /** A catalog record. Prices are integer cents. */
  datatype Product = Product(id: string, name: string, description: string, price: int, image: string)

  /** The cart line a product becomes: its display fields copied, with the given quantity. */
  function ItemOf(p: Product, quantity: int): (item: LineItem)
    ensures item.id == p.id && item.name == p.name && item.price == p.price && item.image == p.image
    ensures item.quantity == quantity
  {
    LineItem(p.id, p.name, p.price, p.image, quantity)
  }

  /** The first catalog product with exactly the given id, as Array.prototype.find. */
  function FindProduct(catalog: seq<Product>, id: string): (r: Option<Product>)
    ensures r.Some? ==> r.value in catalog && r.value.id == id
    ensures r.None? <==> forall p :: p in catalog ==> p.id != id
    ensures r.Some? ==> exists k :: 0 <= k < |catalog| && catalog[k] == r.value
                                 && forall j :: 0 <= j < k ==> catalog[j].id != id
  {
    if |catalog| == 0 then None
    else if catalog[0].id == id then Some(catalog[0])
    else
      var tail := catalog[1..];
      var rest := FindProduct(tail, id);
      assert forall p :: p in catalog ==> p == catalog[0] || p in tail;
      if rest.Some? then
        var k :| 0 <= k < |tail| && tail[k] == rest.value && forall j :: 0 <= j < k ==> tail[j].id != id;
        assert catalog[k + 1] == rest.value;
        assert forall j :: 1 <= j < k + 1 ==> catalog[j] == tail[j - 1];
        rest
      else rest
  }

  /** No two catalog products share an id. */
  predicate DistinctIds(catalog: seq<Product>) {
    forall i, j :: 0 <= i < j < |catalog| ==> catalog[i].id != catalog[j].id
  }

  /** In a catalog whose ids are distinct, looking a member up by its own id finds it. */
  lemma {:induction false} FindProductOwnId(catalog: seq<Product>, p: Product)
    requires p in catalog
    requires DistinctIds(catalog)
    ensures FindProduct(catalog, p.id) == Some(p)
  {
    var r := FindProduct(catalog, p.id);
    var k :| 0 <= k < |catalog| && catalog[k] == r.value && forall j :: 0 <= j < k ==> catalog[j].id != p.id;
    var m :| 0 <= m < |catalog| && catalog[m] == p;
    assert catalog[k].id == catalog[m].id;
    assert k == m;
  }
}

=== FILE: grid_link.dfy ===
/** The product grid's card links (js/scripts.js, dist/js/scripts.js): each
    card links to the detail page with the parameter "product" holding the
    card's id followed by ".png". */
module GridLink {
  import opened Url

  /** The query value a grid card links to: the product id followed by ".png". */
  function GridLinkParam(id: string): (v: string)
    ensures |v| == |id| + 4 && v[..|id|] == id
    ensures v[|id|] == '.'
  {
    id + ".png"
  }

  /** The page a grid card links to. */
  const DetailPage := "product-detail.html"

  /** The href a grid card links to: the detail page, '?', and the one
      parameter "product" holding the link's value. */
  function GridLinkHref(id: string): string {
    DetailPage + "?" + ("product" + "=" + GridLinkParam(id))
  }

  /** An id the link carries through unchanged: none of the characters that
      end a parameter ('&'), end the query ('#'), read as a space ('+'),
      start an escape ('%') or that the URL parser drops (tab, newline). */
  predicate UrlSafe(id: string) {
    && '&' !in id && '#' !in id && '+' !in id && '%' !in id
    && '\t' !in id && '\n' !in id && '\r' !in id
  }
}

=== FILE: product_detail.dfy ===
/** The product detail page, in its two copies: js/product-detail.js finds
    the product from the grid link's "product" parameter, dropping the
    extension; dist/js/product-detail.js uses the raw "id" parameter. Both
    read the parameters of the grid's links through the browser's URL
    handling, and share the quantity stepper and the guarded add-to-cart
    button. */
module ProductDetail {
  import opened Store
  import opened Catalog
  import opened Storefront
  import opened Url
  import opened GridLink

  /** What the page shows: the not-found message, or one product. */
  datatype View = NotFound | Showing(product: Product)

  /** The grid link's value "<id>.png" splits back to the id exactly when the
      id itself holds no '.'. */
  lemma GridLinkRoundTrip(id: string)
    ensures Split(GridLinkParam(id), '.')[0] == id <==> '.' !in id
  {
  }

  /** The parameters the detail page sees when a grid card's link is followed. */
  function GridLinkQuery(id: string): (q: Query)
    ensures '&' !in id ==> q.Keys == {"product"}
    ensures UrlSafe(id) ==> q == map["product" := GridLinkParam(id)]
  {
    GridLinkParsed(id);
    GridLinkSearchSingle(id);
    ParseSearch(Search(GridLinkHref(id)))
  }

  /** An id free of '&' gives one parameter, "product", holding the link's
      value cut at any '#' and with '+' read as a space. */
  lemma GridLinkParsed(id: string)
    ensures '&' !in id ==>
              ParseSearch(Search(GridLinkHref(id))) == map["product" := PlusToSpace(Before(GridLinkParam(id), '#'))]
  {
    var value := GridLinkParam(id);
    var search := "product" + "=" + Before(value, '#');
    GridLinkSearchText(value);
    assert Search(GridLinkHref(id)) == search;
    GridLinkSearchPair(id);
    GridLinkSearchSingle(id);
  }

  /** The link's query text is "product", '=' and the value, cut at any '#'. */
  lemma GridLinkSearchText(value: string)
    ensures Search(DetailPage + "?" + ("product" + "=" + value)) == "product" + "=" + Before(value, '#')
  {
    assert '?' !in DetailPage && '#' !in DetailPage;
    SearchOfParam(DetailPage, "product", value);
  }

  /** That text reads as the pair named "product". */
  lemma GridLinkSearchPair(id: string)
    ensures Pair("product" + "=" + Before(GridLinkParam(id), '#')) == ("product", PlusToSpace(Before(GridLinkParam(id), '#')))
  {
    var cut := Before(GridLinkParam(id), '#');
    PairOfParam("product", cut);
    assert PlusToSpace("product") == "product";
  }

  /** An id free of '&' puts no second parameter in the link. */
  lemma GridLinkSearchSingle(id: string)
    ensures '&' !in id ==> '&' !in "product" + "=" + Before(GridLinkParam(id), '#')
    ensures '#' !in id ==> Before(GridLinkParam(id), '#') == GridLinkParam(id)
    ensures '+' !in id ==> PlusToSpace(GridLinkParam(id)) == GridLinkParam(id)
  {
    var value := GridLinkParam(id);
    assert value == id + ".png";
    if '&' !in id {
      assert '&' !in value;
      assert '&' !in Before(value, '#');
    }
  }

  /** An id free of '#' keeps the whole value in the link's query text. */
  lemma GridLinkSearchWhole(id: string)
    requires '#' !in id
    ensures Search(GridLinkHref(id)) == "product" + "=" + GridLinkParam(id)
  {
    calc {
      Search(GridLinkHref(id));
      Search(DetailPage + "?" + ("product" + "=" + GridLinkParam(id)));
      { GridLinkSearchText(GridLinkParam(id)); }
      "product" + "=" + Before(GridLinkParam(id), '#');
      { ParamFreeOf(id, '#'); }
      "product" + "=" + GridLinkParam(id);
    }
  }

  /** An id free of '&' or '#' gives a link value free of it too. */
  lemma ParamFreeOf(id: string, ch: char)
    requires ch !in id && ch !in ".png"
    ensures ch !in GridLinkParam(id)
  {
    assert GridLinkParam(id) == id + ".png";
  }

  /** An id "<a>&id=<b>" puts a second parameter, "id", in its card's link. */
  lemma GridLinkSecondParam(a: string, b: string)
    requires '&' !in a && '#' !in a && '+' !in a && '=' !in a
    requires '&' !in b && '#' !in b && '+' !in b
    ensures GridLinkQuery(a + "&" + ("id" + "=" + b)) == map["product" := a, "id" := b + ".png"]
  {
    var id := a + "&" + ("id" + "=" + b);
    var v := b + ".png";
    calc {
      GridLinkQuery(id);
      ParseSearch(Search(GridLinkHref(id)));
      { SecondParamValue(a, b); GridLinkSearchWhole(id); }
      ParseSearch("product" + "=" + GridLinkParam(id));
      { SecondParamValue(a, b); }
      ParseSearch("product" + "=" + (a + "&" + ("id" + "=" + v)));
      { SecondParamParsed(a, v); }
      map["product" := a, "id" := v];
    }
  }

  /** The link value of "<a>&id=<b>", regrouped around its '&'. */
  lemma SecondParamValue(a: string, b: string)
    requires '#' !in a && '#' !in b
    ensures GridLinkParam(a + "&" + ("id" + "=" + b)) == a + "&" + ("id" + "=" + (b + ".png"))
    ensures '#' !in a + "&" + ("id" + "=" + b)
  {
  }

  /** "product=<a>&id=<v>" reads as the two parameters. */
  lemma SecondParamParsed(a: string, v: string)
    requires '&' !in a && '+' !in a && '=' !in a
    requires '&' !in v && '+' !in v
    ensures ParseSearch("product" + "=" + (a + "&" + ("id" + "=" + v))) == map["product" := a, "id" := v]
  {
    assert "product" + "=" + (a + "&" + ("id" + "=" + v)) == "product" + "=" + a + "&" + ("id" + "=" + v);
    TwoParams("product", a, "id", v);
  }

  /** Catalog lookup shared by both copies: no catalog or no product with the
      id gives the not-found view. */
  function Lookup(catalog: Option<seq<Product>>, id: string): (v: View)
    ensures v.Showing? <==> catalog.Some? && InCatalog(catalog.value, id)
    ensures v.Showing? ==> v.product in catalog.value && v.product.id == id
    ensures v.Showing? ==> FindProduct(catalog.value, id) == Some(v.product)
  {
    if catalog.None? then NotFound
    else
      match FindProduct(catalog.value, id)
      case None => NotFound
      case Some(p) => Showing(p)
  }

  /** js/product-detail.js: a missing or empty "product" parameter is not
      found; otherwise the id is the parameter up to its first '.'. */
  function ResolveByLink(q: Query, catalog: Option<seq<Product>>): (v: View)
    ensures "product" !in q || q["product"] == "" ==> v == NotFound
    ensures v.Showing? <==> "product" in q && q["product"] != "" && catalog.Some?
                             && InCatalog(catalog.value, Before(q["product"], '.'))
    ensures v.Showing? ==> v.product in catalog.value && v.product.id == Before(q["product"], '.')
    ensures v.Showing? ==> FindProduct(catalog.value, Before(q["product"], '.')) == Some(v.product)
  {
    if "product" !in q || q["product"] == "" then NotFound
    else Lookup(catalog, Split(q["product"], '.')[0])
  }

  /** dist/js/product-detail.js: a missing or empty "id" parameter is not
      found; otherwise its raw value is the id, with no extension dropped. */
  function ResolveById(q: Query, catalog: Option<seq<Product>>): (v: View)
    ensures "id" !in q || q["id"] == "" ==> v == NotFound
    ensures v.Showing? <==> "id" in q && q["id"] != "" && catalog.Some? && InCatalog(catalog.value, q["id"])
    ensures v.Showing? ==> v.product in catalog.value && v.product.id == q["id"]
    ensures v.Showing? ==> FindProduct(catalog.value, q["id"]) == Some(v.product)
  {
    if "id" !in q || q["id"] == "" then NotFound
    else Lookup(catalog, q["id"])
  }

  /** Following a grid card's link opens that card's product, when product
      ids are distinct and the card's id holds no '.' and passes through the
      link unchanged. */
  lemma GridLinkOpensProduct(catalog: seq<Product>, p: Product)
    requires p in catalog && DistinctIds(catalog)
    requires '.' !in p.id && UrlSafe(p.id)
    ensures ResolveByLink(GridLinkQuery(p.id), Some(catalog)) == Showing(p)
  {
    GridLinkRoundTrip(p.id);
    FindProductOwnId(catalog, p);
  }

  /** A '+' in an id reaches the page as a space: a card whose id holds a
      '+' (and no '&', '#' or '.') links to the not-found view. */
  lemma GridLinkPlusNotFound(p: Product)
    requires '+' in p.id && '&' !in p.id && '#' !in p.id && '.' !in p.id
    ensures ResolveByLink(GridLinkQuery(p.id), Some([p])) == NotFound
  {
    var seen := PlusToSpace(p.id);
    GridLinkParsed(p.id);
    GridLinkSearchSingle(p.id);
    assert GridLinkParam(p.id) == p.id + ".png";
    PlusToSpaceConcat(p.id, ".png");
    assert PlusToSpace(".png") == ".png";
    assert '.' !in seen;
    BeforeConcat(seen, ".png", '.');
    assert Before(".png", '.') == "";
    assert seen != p.id;
  }

  /** The grid's links carry only a "product" parameter, which the dist copy
      of the page never reads: a grid link whose id holds no '&' shows the
      not-found view there, whatever the catalog. */
  lemma DistGridLinkNeverResolves(catalog: Option<seq<Product>>, id: string)
    requires '&' !in id
    ensures ResolveById(GridLinkQuery(id), catalog) == NotFound
  {
  }

  /** An '&' in an id starts a second parameter: the card of id
      "<a>&id=<b>" links to a query whose "id" is "<b>.png", and the dist copy
      of the page shows the product of that id when the catalog has one. */
  lemma DistGridLinkAmpersandOpens(catalog: seq<Product>, a: string, b: string, p: Product)
    requires '&' !in a && '#' !in a && '+' !in a && '=' !in a
    requires '&' !in b && '#' !in b && '+' !in b
    requires p in catalog && DistinctIds(catalog) && p.id == b + ".png"
    ensures ResolveById(GridLinkQuery(a + "&" + ("id" + "=" + b)), Some(catalog)) == Showing(p)
  {
    GridLinkSecondParam(a, b);
    FindProductOwnId(catalog, p);
  }

  /** A concrete instance: product "01" is in the catalog, its grid link opens
      it on one copy of the page and shows not-found on the other. */
  lemma DistGridLinkExample()
    ensures var p := Product("01", "Mug", "", 999, "img/01.png");
            && ResolveByLink(GridLinkQuery("01"), Some([p])) == Showing(p)
            && ResolveById(GridLinkQuery("01"), Some([p])) == NotFound
  {
    var p := Product("01", "Mug", "", 999, "img/01.png");
    GridLinkOpensProduct([p], p);
    DistGridLinkNeverResolves(Some([p]), "01");
  }

  /** The quantity field as parseInt reads it: None stands for NaN. */
  type Field = Option<int>

  /** The "-" button: lowers the value by one only when it is above 1. */
  function StepDown(v: Field): (r: Field)
    ensures r != v ==> v.Some? && v.value > 1 && r == Some(v.value - 1)
    ensures v.Some? && v.value > 1 ==> r.Some? && r.value == v.value - 1
    ensures v.Some? && v.value >= 1 ==> r.Some? && r.value >= 1
  {
    if v.Some? && v.value > 1 then Some(v.value - 1) else v
  }

  /** The "+" button: adds one with no upper bound; NaN plus one stays NaN. */
  function StepUp(v: Field): (r: Field)
    ensures v.Some? ==> r == Some(v.value + 1)
    ensures v.None? ==> r.None?
  {
    match v
    case Some(n) => Some(n + 1)
    case None => None
  }

  /** The page's add button: forwards the field's quantity to the global
      add-to-cart only when it is a number above 0 and that function is
      loaded; otherwise the cart is untouched. */
  function AddClick(s: Slot, p: Product, v: Field, addToCartLoaded: bool): (r: Slot)
    ensures !(v.Some? && v.value > 0 && addToCartLoaded) ==> r == s
    ensures v.Some? && v.value > 0 && addToCartLoaded ==>
              r.Saved? && HasId(Load(r), p.id) && Count(Load(r)) == Count(Load(s)) + v.value
    ensures v.Some? && v.value > 0 && addToCartLoaded && UniqueIds(Load(s)) ==>
              && QuantityOf(Load(r), p.id) == QuantityOf(Load(s), p.id) + v.value
              && forall id :: id != p.id ==> QuantityOf(Load(r), id) == QuantityOf(Load(s), id)
    ensures v.Some? && v.value > 0 && addToCartLoaded && HasId(Load(s), p.id) ==>
              BumpedAt(Load(s), Load(r), FindIndex(Load(s), p.id).value, v.value)
    ensures v.Some? && v.value > 0 && addToCartLoaded && !HasId(Load(s), p.id) ==>
              AppendedWith(Load(s), Load(r), ItemOf(p, v.value))
    ensures PositiveQuantities(Load(s)) ==> PositiveQuantities(Load(r))
    ensures UniqueIds(Load(s)) ==> UniqueIds(Load(r))
  {
    if v.Some? && v.value > 0 && addToCartLoaded then
      AddToCartCount(s, p, v.value);
      AddToCartKeepsValid(s, p, v.value);
      AddToCartAddsToOwnLine(s, p, v.value);
      AddToCart(s, p, v.value)
    else s
  }

  /** The three controls of the page. */
  datatype Press = Minus | Plus | Add

  /** The page state: the stored cart and the quantity field. */
  datatype Page = Page(slot: Slot, field: Field)

  /** One press on the page of product p. */
  function Apply(pg: Page, p: Product, addToCartLoaded: bool, press: Press): Page {
    match press
    case Minus => Page(pg.slot, StepDown(pg.field))
    case Plus => Page(pg.slot, StepUp(pg.field))
    case Add => Page(AddClick(pg.slot, p, pg.field, addToCartLoaded), pg.field)
  }

  /** Replays a run of presses on the page of product p. */
  function Session(pg: Page, p: Product, addToCartLoaded: bool, presses: seq<Press>): Page
    decreases |presses|
  {
    if |presses| == 0 then pg
    else Session(Apply(pg, p, addToCartLoaded, presses[0]), p, addToCartLoaded, presses[1..])
  }

  /** Whatever the presses, a quantity field that starts at 1 or more stays
      at 1 or more, and a valid cart stays valid. */
  lemma {:induction false} SessionKeepsInvariants(pg: Page, p: Product, addToCartLoaded: bool, presses: seq<Press>)
    ensures pg.field.Some? && pg.field.value >= 1 ==>
              var f := Session(pg, p, addToCartLoaded, presses).field; f.Some? && f.value >= 1
    ensures Valid(Load(pg.slot)) ==> Valid(Load(Session(pg, p, addToCartLoaded, presses).slot))
    decreases |presses|
  {
    if |presses| > 0 {
      SessionKeepsInvariants(Apply(pg, p, addToCartLoaded, presses[0]), p, addToCartLoaded, presses[1..]);
    }
  }
}

=== FILE: simple_cart_page.dfy ===
/** The cart page of js/cart.js: one click handler that changes the stored
    cart directly ("+" adds one, "-" stops at 1, the trash button splices the
    line out, with no confirmation), a subtotal summed line by line, a
    checkout that drops the storage key unconditionally and a clear that
    drops it once confirmed. */
module SimpleCartPage {
  import opened Store
  import CartPage

  function Max(a: int, b: int): int {
    if a >= b then a else b
  }

  /** "-" on line i: one less, but never below 1. */
  function ClampedDecrease(c: Cart, i: nat): (r: Cart)
    requires i < |c|
    ensures |r| == |c| && r[i].quantity >= 1
    ensures c[i].quantity > 1 ==> BumpedAt(c, r, i, -1)
    ensures c[i].quantity <= 1 ==> r[i].quantity == 1
    ensures c[i].quantity == 1 ==> r == c
    ensures forall k :: 0 <= k < |c| && k != i ==> r[k] == c[k]
  {
    var q := c[i].quantity;
    assert q == 1 ==> c[i := c[i].(quantity := 1)] == c;
    c[i := c[i].(quantity := Max(1, q - 1))]
  }

  /** The trash button on line i: splice it out, the rest in order. */
  function SpliceOut(c: Cart, i: nat): (r: Cart)
    requires i < |c|
    ensures |r| == |c| - 1
    ensures forall k :: 0 <= k < i ==> r[k] == c[k]
    ensures forall k :: i < k < |c| ==> r[k - 1] == c[k]
  {
    c[..i] + c[i + 1..]
  }

  /** The click handler on the cart list. An id not in the cart returns
      without saving; otherwise the changed cart is saved, and a click on no
      control saves the cart unchanged. */
  function Click(s: Slot, id: string, control: Control): (r: Slot)
    ensures !HasId(Load(s), id) ==> r == s
    ensures HasId(Load(s), id) ==> r.Saved?
    ensures HasId(Load(s), id) && control == Elsewhere ==> r == s
    ensures HasId(Load(s), id) && control == IncreaseButton ==>
              BumpedAt(Load(s), r.cart, FindIndex(Load(s), id).value, 1)
    ensures HasId(Load(s), id) && control == DecreaseButton ==>
              var c, i := Load(s), FindIndex(Load(s), id).value;
              && |r.cart| == |c|
              && r.cart[i].quantity >= 1
              && (c[i].quantity > 1 ==> BumpedAt(c, r.cart, i, -1))
              && (c[i].quantity <= 1 ==> r.cart[i].quantity == 1)
              && (c[i].quantity == 1 ==> r.cart == c)
              && (forall k :: 0 <= k < |c| && k != i ==> r.cart[k] == c[k])
    ensures HasId(Load(s), id) && control == RemoveButton ==>
              var c, i := Load(s), FindIndex(Load(s), id).value;
              && |r.cart| == |c| - 1
              && (forall k :: 0 <= k < i ==> r.cart[k] == c[k])
              && (forall k :: i < k < |c| ==> r.cart[k - 1] == c[k])
  {
    var c := Load(s);
    match FindIndex(c, id)
    case None => s
    case Some(i) =>
      match control
      case IncreaseButton => Save(c[i := c[i].(quantity := c[i].quantity + 1)])
      case DecreaseButton => Save(ClampedDecrease(c, i))
      case RemoveButton => Save(SpliceOut(c, i))
      case Elsewhere => Save(c)
  }

  /** Every click keeps the cart invariant; "-" never removes a line. */
  lemma ClickKeepsValid(s: Slot, id: string, control: Control)
    requires Valid(Load(s))
    ensures Valid(Load(Click(s, id, control)))
    ensures control != RemoveButton ==> |Load(Click(s, id, control))| == |Load(s)|
  {
    var c := Load(s);
    if HasId(c, id) {
      var i := FindIndex(c, id).value;
      match control
      case IncreaseButton => SetQuantityKeepsValid(c, i, c[i].quantity + 1);
      case DecreaseButton =>
        SetQuantityKeepsValid(c, i, Max(1, c[i].quantity - 1));
        assert ClampedDecrease(c, i) == c[i := c[i].(quantity := Max(1, c[i].quantity - 1))];
      case RemoveButton => RemoveAtKeepsValid(c, i);
      case Elsewhere =>
    }
  }

  /** The unit count after a click: "+" adds one, "-" takes one off unless
      the line is at 1, the trash button takes the whole line's units off. */
  lemma ClickCount(s: Slot, id: string, control: Control)
    requires HasId(Load(s), id)
    requires PositiveQuantities(Load(s))
    ensures var c, i := Load(s), FindIndex(Load(s), id).value;
            Count(Load(Click(s, id, control))) == Count(c) + match control
              case IncreaseButton => 1
              case DecreaseButton => if c[i].quantity > 1 then -1 else 0
              case RemoveButton => -c[i].quantity
              case Elsewhere => 0
  {
    var c, i := Load(s), FindIndex(Load(s), id).value;
    var r := Load(Click(s, id, control));
    match control
    case IncreaseButton => SumUpdate(c, i, r[i], Units);
    case DecreaseButton =>
      assert r == c[i := r[i]];
      SumUpdate(c, i, r[i], Units);
    case RemoveButton => SumRemoveAt(c, i, Units);
    case Elsewhere =>
  }

  /** Against the dist page on a valid cart: "+" does the same, the trash
      button does what a confirmed removal does there, and "-" agrees except
      on a line at 1, where this page keeps the line and the dist page asks. */
  lemma AgreesWithDistPage(s: Slot, id: string)
    requires Valid(Load(s))
    requires id != "" && HasId(Load(s), id)
    ensures Click(s, id, IncreaseButton) == CartPage.ItemClick(s, id, IncreaseButton).slot
    ensures Load(Click(s, id, RemoveButton)) == Load(CartPage.Answer(s, CartPage.ConfirmRemove(id), true).slot)
    ensures Load(s)[FindIndex(Load(s), id).value].quantity > 1 ==>
              Click(s, id, DecreaseButton) == CartPage.ItemClick(s, id, DecreaseButton).slot
  {
    StepAgrees(s, id, IncreaseButton, 1);
    if Load(s)[FindIndex(Load(s), id).value].quantity > 1 {
      StepAgrees(s, id, DecreaseButton, -1);
    }
    RemoveAgrees(s, id);
  }

  lemma StepAgrees(s: Slot, id: string, control: Control, change: int)
    requires id != "" && HasId(Load(s), id)
    requires (control == IncreaseButton && change == 1) || (control == DecreaseButton && change == -1)
    requires Load(s)[FindIndex(Load(s), id).value].quantity + change > 0
    ensures Click(s, id, control) == CartPage.ItemClick(s, id, control).slot
  {
    var c, i := Load(s), FindIndex(Load(s), id).value;
    var u := c[i := c[i].(quantity := c[i].quantity + change)];
    assert CartPage.ItemClick(s, id, control) == CartPage.UpdateQuantity(s, id, change);
    assert CartPage.UpdateQuantity(s, id, change).slot == Saved(u);
    if control == DecreaseButton {
      assert ClampedDecrease(c, i) == u;
    }
  }

  lemma RemoveAgrees(s: Slot, id: string)
    requires Valid(Load(s))
    requires HasId(Load(s), id)
    ensures Load(Click(s, id, RemoveButton)) == Load(CartPage.Answer(s, CartPage.ConfirmRemove(id), true).slot)
  {
    var c, i := Load(s), FindIndex(Load(s), id).value;
    CartPage.RemoveItemSplices(s, id);
    assert Load(Click(s, id, RemoveButton)) == SpliceOut(c, i);
  }

  /** renderCart's loop: the subtotal accumulated line by line in cart order. */
  method RenderSubtotal(c: Cart) returns (subtotal: int)
    ensures subtotal == Subtotal(c)
    ensures |c| == 0 ==> subtotal == 0
  {
    subtotal := 0;
    var k := 0;
    while k < |c|
      invariant 0 <= k <= |c|
      invariant subtotal == Subtotal(c[..k])
    {
      SumAppend(c[..k], c[k], LineTotal);
      assert c[..k + 1] == c[..k] + [c[k]];
      subtotal := subtotal + c[k].price * c[k].quantity;
      k := k + 1;
    }
    assert c[..|c|] == c;
  }

  /** The summary text: subtotal and total, the total equal to the subtotal. */
  datatype Totals = Totals(subtotal: int, total: int)

  /** updateCartSummary(subtotal): both figures show the same amount. */
  method RenderTotals(s: Slot) returns (t: Totals)
    ensures t.subtotal == Subtotal(Load(s)) && t.total == t.subtotal
    ensures Load(s) == [] ==> t == Totals(0, 0)
  {
    var c := Load(s);
    if |c| == 0 {
      t := Totals(0, 0);
    } else {
      var sub := RenderSubtotal(c);
      t := Totals(sub, sub);
    }
  }

  /** The checkout button removes the storage key whatever the cart held. */
  function Checkout(s: Slot): (r: Slot)
    ensures r == Absent && Load(r) == []
  {
    Absent
  }

  /** The clear button removes the storage key only when confirmed. */
  function Clear(s: Slot, confirmed: bool): (r: Slot)
    ensures confirmed ==> r == Absent && Load(r) == []
    ensures !confirmed ==> r == s
  {
    if confirmed then Absent else s
  }
}

=== FILE: store.dfy ===
/** The cart store shared by every page of the storefront: the line items,
    the browser-storage slot that holds them under the key "shoppingCart",
    lookup by product id, removal by id, and the sums the badge and the
    order summary are derived from. */
module Store {

  datatype Option<+T> = None | Some(value: T)

  /** One cart line: a snapshot of a catalog product taken when it was first
      added, plus how many of it are wanted. Prices are integer cents. */
  datatype LineItem = LineItem(id: string, name: string, price: int, image: string, quantity: int)

  type Cart = seq<LineItem>

  /** The storage entry for the cart key: never written (or removed), or
      holding the last cart saved. */
  datatype Slot = Absent | Saved(cart: Cart)

  /** Where a click inside a rendered cart line landed. */
  datatype Control = DecreaseButton | IncreaseButton | RemoveButton | Elsewhere

  /** Reads the cart; an absent key reads as the empty cart. */
  function Load(s: Slot): (c: Cart)
    ensures s == Absent ==> c == []
    ensures s.Saved? ==> c == s.cart
  {
    match s
    case Absent => []
    case Saved(items) => items
  }

  /** Writes the whole cart, replacing whatever was stored before. */
  function Save(c: Cart): (s: Slot)
    ensures Load(s) == c
    ensures s != Absent
  {
    Saved(c)
  }

  predicate HasId(c: Cart, id: string) {
    exists k :: 0 <= k < |c| && c[k].id == id
  }

  /** No two lines share a product id. */
  predicate UniqueIds(c: Cart) {
    forall i, j :: 0 <= i < j < |c| ==> c[i].id != c[j].id
  }

  /** Every line holds at least one unit. */
  predicate PositiveQuantities(c: Cart) {
    forall k :: 0 <= k < |c| ==> c[k].quantity >= 1
  }

  /** The cart invariant every page maintains. */
  predicate Valid(c: Cart) {
    UniqueIds(c) && PositiveQuantities(c)
  }

  /** Index of the first line with the given id, as Array.prototype.findIndex. */
  function FindIndex(c: Cart, id: string): (r: Option<nat>)
    ensures r.None? <==> !HasId(c, id)
    ensures r.Some? ==> r.value < |c| && c[r.value].id == id
    ensures r.Some? ==> forall j :: 0 <= j < r.value ==> c[j].id != id
  {
    if |c| == 0 then None
    else if c[0].id == id then Some(0)
    else
      match FindIndex(c[1..], id)
      case None =>
        assert forall k :: 1 <= k < |c| ==> c[k] == c[1..][k - 1];
        None
      case Some(k) =>
        assert forall j :: 1 <= j < k + 1 ==> c[j] == c[1..][j - 1];
        Some(k + 1)
  }

  /** Units held of the given product id: the first matching line's quantity, or 0. */
  function QuantityOf(c: Cart, id: string): int {
    match FindIndex(c, id)
    case None => 0
    case Some(i) => c[i].quantity
  }

  /** r is c with the quantity of line i moved by delta and every other line untouched. */
  predicate BumpedAt(c: Cart, r: Cart, i: nat, delta: int) {
    && |r| == |c|
    && i < |c|
    && r[i] == c[i].(quantity := c[i].quantity + delta)
    && forall k :: 0 <= k < |c| && k != i ==> r[k] == c[k]
  }

  /** r is c with one line added at the end. */
  predicate AppendedWith(c: Cart, r: Cart, item: LineItem) {
    |r| == |c| + 1 && r[..|c|] == c && r[|c|] == item
  }

  /** The cart with every line of the given id filtered out, order kept. */
  function RemoveId(c: Cart, id: string): (r: Cart)
    ensures |r| <= |c|
    ensures !HasId(r, id)
    ensures forall x :: x in r <==> x in c && x.id != id
    ensures |r| == |c| <==> !HasId(c, id)
  {
    if |c| == 0 then []
    else if c[0].id == id then RemoveId(c[1..], id)
    else
      assert HasId(c, id) ==> HasId(c[1..], id) by {
        if HasId(c, id) {
          var k :| 0 <= k < |c| && c[k].id == id;
          assert c[1..][k - 1] == c[k];
        }
      }
      [c[0]] + RemoveId(c[1..], id)
  }

  /** Sum of a per-line measure over the cart, as Array.prototype.reduce from 0. */
  function Sum(c: Cart, w: LineItem -> int): int {
    if |c| == 0 then 0 else w(c[0]) + Sum(c[1..], w)
  }

  function Units(item: LineItem): int {
    item.quantity
  }

  function LineTotal(item: LineItem): int {
    item.price * item.quantity
  }

  /** Total number of units in the cart: the header badge's number. */
  function Count(c: Cart): int {
    Sum(c, Units)
  }

  /** Sum of price times quantity over all lines. */
  function Subtotal(c: Cart): int {
    Sum(c, LineTotal)
  }

  lemma {:induction false} SumAppend(c: Cart, x: LineItem, w: LineItem -> int)
    ensures Sum(c + [x], w) == Sum(c, w) + w(x)
  {
    if |c| == 0 {
      assert c + [x] == [x];
    } else {
      assert (c + [x])[1..] == c[1..] + [x];
      SumAppend(c[1..], x, w);
    }
  }

  lemma {:induction false} SumUpdate(c: Cart, i: nat, x: LineItem, w: LineItem -> int)
    requires i < |c|
    ensures Sum(c[i := x], w) == Sum(c, w) - w(c[i]) + w(x)
  {
    if i > 0 {
      assert c[i := x][1..] == c[1..][i - 1 := x];
      SumUpdate(c[1..], i - 1, x, w);
    }
  }

  lemma {:induction false} SumConcat(a: Cart, b: Cart, w: LineItem -> int)
    ensures Sum(a + b, w) == Sum(a, w) + Sum(b, w)
  {
    if |a| == 0 {
      assert a + b == b;
    } else {
      assert (a + b)[1..] == a[1..] + b;
      SumConcat(a[1..], b, w);
    }
  }

  /** Splicing out one line takes exactly that line's measure off the sum. */
  lemma SumRemoveAt(c: Cart, i: nat, w: LineItem -> int)
    requires i < |c|
    ensures Sum(c[..i] + c[i + 1..], w) == Sum(c, w) - w(c[i])
  {
    assert c == c[..i] + ([c[i]] + c[i + 1..]);
    SumConcat(c[..i], [c[i]] + c[i + 1..], w);
    SumConcat(c[..i], c[i + 1..], w);
    assert ([c[i]] + c[i + 1..])[1..] == c[i + 1..];
  }

  /** With every quantity at least 1, the unit count is at least the number
      of lines; so the count is 0 exactly when the cart is empty. */
  lemma {:induction false} CountAtLeastLength(c: Cart)
    requires PositiveQuantities(c)
    ensures Count(c) >= |c|
    ensures Count(c) == 0 <==> |c| == 0
  {
    if |c| > 0 {
      assert PositiveQuantities(c[1..]) by {
        forall k | 0 <= k < |c[1..]| ensures c[1..][k].quantity >= 1 {
          assert c[1..][k] == c[k + 1];
        }
      }
      CountAtLeastLength(c[1..]);
    }
  }

  /** Filtering an id the cart does not hold changes nothing. */
  lemma {:induction false} RemoveIdAbsent(c: Cart, id: string)
    requires !HasId(c, id)
    ensures RemoveId(c, id) == c
  {
    if |c| > 0 {
      assert !HasId(c[1..], id) by {
        forall k | 0 <= k < |c[1..]| ensures c[1..][k].id != id {
          assert c[1..][k] == c[k + 1];
        }
      }
      RemoveIdAbsent(c[1..], id);
    }
  }

  /** Filtering distributes over concatenation. */
  lemma {:induction false} RemoveIdConcat(a: Cart, b: Cart, id: string)
    ensures RemoveId(a + b, id) == RemoveId(a, id) + RemoveId(b, id)
  {
    if |a| == 0 {
      assert a + b == b;
    } else {
      assert (a + b)[0] == a[0];
      assert (a + b)[1..] == a[1..] + b;
      RemoveIdConcat(a[1..], b, id);
    }
  }

  /** With unique ids, filtering an id out is splicing out the one line found. */
  lemma RemoveIdIsSplice(c: Cart, id: string, i: nat)
    requires UniqueIds(c)
    requires FindIndex(c, id) == Some(i)
    ensures RemoveId(c, id) == c[..i] + c[i + 1..]
  {
    NoMatchAfterFirst(c, id, i);
    RemoveIdAtOnlyMatch(c, id, i);
  }

  lemma NoMatchAfterFirst(c: Cart, id: string, i: nat)
    requires UniqueIds(c)
    requires i < |c| && c[i].id == id
    ensures !HasId(c[i + 1..], id)
  {
    var after := c[i + 1..];
    forall k | 0 <= k < |after| ensures after[k].id != id {
      assert after[k] == c[i + 1 + k];
    }
  }

  /** Filtering removes just the line at i when no other line has its id. */
  lemma RemoveIdAtOnlyMatch(c: Cart, id: string, i: nat)
    requires i < |c| && c[i].id == id
    requires !HasId(c[..i], id) && !HasId(c[i + 1..], id)
    ensures RemoveId(c, id) == c[..i] + c[i + 1..]
  {
    var before, after := c[..i], c[i + 1..];
    var head := before + [c[i]];
    assert c == head + after;
    calc {
      RemoveId(c, id);
      RemoveId(head + after, id);
      { RemoveIdConcat(head, after, id); }
      RemoveId(head, id) + RemoveId(after, id);
      { RemoveIdDropsLast(before, c[i], id); RemoveIdAbsent(after, id); }
      before + after;
    }
  }

  lemma RemoveIdDropsLast(before: Cart, x: LineItem, id: string)
    requires x.id == id && !HasId(before, id)
    ensures RemoveId(before + [x], id) == before
  {
    RemoveIdAbsent(before, id);
    RemoveIdSingle(x, id);
    RemoveIdConcat(before, [x], id);
    assert before + [] == before;
  }

  lemma RemoveIdSingle(x: LineItem, id: string)
    requires x.id == id
    ensures RemoveId([x], id) == []
  {
    assert [x][1..] == [];
  }

  /** Lookup by id sees only the ids, so two carts with the same ids in the
      same positions find the same index. */
  lemma FindIndexSameIds(a: Cart, b: Cart, id: string)
    requires |a| == |b|
    requires forall k :: 0 <= k < |a| ==> a[k].id == b[k].id
    ensures FindIndex(a, id) == FindIndex(b, id)
  {
  }

  /** Appending a line does not move an earlier match; a fresh id is found at the new end. */
  lemma FindIndexAppend(c: Cart, x: LineItem, id: string)
    ensures HasId(c, id) ==> FindIndex(c + [x], id) == FindIndex(c, id)
    ensures !HasId(c, id) ==> FindIndex(c + [x], id) == if x.id == id then Some(|c|) else None
  {
    var e := c + [x];
    assert forall k :: 0 <= k < |c| ==> e[k] == c[k];
    if HasId(c, id) {
      var i := FindIndex(c, id).value;
      assert e[i].id == id;
    } else if x.id == id {
      assert e[|c|].id == id;
    }
  }

  /** Splicing out a line keeps the cart invariant. */
  lemma RemoveAtKeepsValid(c: Cart, i: nat)
    requires Valid(c)
    requires i < |c|
    ensures Valid(c[..i] + c[i + 1..])
  {
    var r := c[..i] + c[i + 1..];
    assert forall k :: 0 <= k < |r| ==> r[k] == (if k < i then c[k] else c[k + 1]);
  }

  /** Changing one line's quantity to a positive value keeps the invariant. */
  lemma SetQuantityKeepsValid(c: Cart, i: nat, q: int)
    requires Valid(c)
    requires i < |c|
    requires q >= 1
    ensures Valid(c[i := c[i].(quantity := q)])
  {
  }
}

=== FILE: storefront.dfy ===
/** The script every storefront page loads (js/scripts.js, with an identical
    copy as dist/js/scripts.js): the global add-to-cart and header-badge
    functions, and the product grid's add button. */
module Storefront {
  import opened Store
  import opened Catalog

  /** window.addToCart(product, quantity = 1): find-or-append with no
      validation of the product, then save the whole cart. */
  function AddToCart(s: Slot, p: Product, quantity: int): (r: Slot)
    ensures r.Saved?
    ensures HasId(Load(s), p.id) ==> BumpedAt(Load(s), r.cart, FindIndex(Load(s), p.id).value, quantity)
    ensures !HasId(Load(s), p.id) ==> AppendedWith(Load(s), r.cart, ItemOf(p, quantity))
  {
    var c := Load(s);
    match FindIndex(c, p.id)
    case Some(i) => Save(c[i := c[i].(quantity := c[i].quantity + quantity)])
    case None => Save(c + [ItemOf(p, quantity)])
  }

  /** Adding keeps ids unique, and keeps every quantity positive when the
      added quantity is positive. */
  lemma AddToCartKeepsValid(s: Slot, p: Product, quantity: int)
    ensures UniqueIds(Load(s)) ==> UniqueIds(Load(AddToCart(s, p, quantity)))
    ensures PositiveQuantities(Load(s)) && quantity >= 1 ==> PositiveQuantities(Load(AddToCart(s, p, quantity)))
  {
    var c, r := Load(s), Load(AddToCart(s, p, quantity));
    if !HasId(c, p.id) {
      assert forall k :: 0 <= k < |c| ==> r[k] == c[k];
    }
  }

  /** Adding raises the unit count by exactly the quantity added. */
  lemma AddToCartCount(s: Slot, p: Product, quantity: int)
    ensures Count(Load(AddToCart(s, p, quantity))) == Count(Load(s)) + quantity
  {
    var c, r := Load(s), Load(AddToCart(s, p, quantity));
    match FindIndex(c, p.id)
    case Some(i) =>
      assert r == c[i := c[i].(quantity := c[i].quantity + quantity)];
      SumUpdate(c, i, r[i], Units);
    case None =>
      SumAppend(c, ItemOf(p, quantity), Units);
  }

  /** With unique ids, adding moves the added id's units by the quantity and
      leaves every other id's units as they were. */
  lemma AddToCartQuantities(s: Slot, p: Product, quantity: int)
    requires UniqueIds(Load(s))
    ensures HasId(Load(AddToCart(s, p, quantity)), p.id)
    ensures QuantityOf(Load(AddToCart(s, p, quantity)), p.id) == QuantityOf(Load(s), p.id) + quantity
    ensures forall id :: id != p.id ==> QuantityOf(Load(AddToCart(s, p, quantity)), id) == QuantityOf(Load(s), id)
  {
    var c, r := Load(s), Load(AddToCart(s, p, quantity));
    match FindIndex(c, p.id)
    case Some(i) =>
      FindIndexSameIdsAll(c, r);
      assert r[i].id == p.id;
    case None =>
      assert r == c + [ItemOf(p, quantity)];
      forall id ensures FindIndex(r, id) == (if HasId(c, id) then FindIndex(c, id) else if p.id == id then Some(|c|) else None) {
        FindIndexAppend(c, ItemOf(p, quantity), id);
      }
      assert r[|c|].id == p.id;
  }

  /** Whatever the cart, the added product then has a line; with unique ids
      the units go to that line only. */
  lemma AddToCartAddsToOwnLine(s: Slot, p: Product, quantity: int)
    ensures HasId(Load(AddToCart(s, p, quantity)), p.id)
    ensures UniqueIds(Load(s)) ==>
              && QuantityOf(Load(AddToCart(s, p, quantity)), p.id) == QuantityOf(Load(s), p.id) + quantity
              && forall id :: id != p.id ==> QuantityOf(Load(AddToCart(s, p, quantity)), id) == QuantityOf(Load(s), id)
  {
    var c, r := Load(s), Load(AddToCart(s, p, quantity));
    if UniqueIds(c) {
      AddToCartQuantities(s, p, quantity);
    } else if HasId(c, p.id) {
      assert r[FindIndex(c, p.id).value].id == p.id;
    } else {
      assert r[|c|].id == p.id;
    }
  }

  lemma FindIndexSameIdsAll(a: Cart, b: Cart)
    requires |a| == |b|
    requires forall k :: 0 <= k < |a| ==> a[k].id == b[k].id
    ensures forall id :: FindIndex(a, id) == FindIndex(b, id)
  {
    forall id ensures FindIndex(a, id) == FindIndex(b, id) {
      FindIndexSameIds(a, b, id);
    }
  }

  /** A run of adds of one product, in order. */
  function AddAll(s: Slot, p: Product, quantities: seq<int>): Slot
    decreases |quantities|
  {
    if |quantities| == 0 then s else AddAll(AddToCart(s, p, quantities[0]), p, quantities[1..])
  }

  function Total(xs: seq<int>): int {
    if |xs| == 0 then 0 else xs[0] + Total(xs[1..])
  }

  /** Any run of adds of the same product leaves exactly one line for it,
      holding the units it held before plus the sum of the quantities added;
      other products' lines keep their units. */
  lemma {:induction false} RepeatedAddsAccumulate(s: Slot, p: Product, quantities: seq<int>)
    requires UniqueIds(Load(s))
    ensures UniqueIds(Load(AddAll(s, p, quantities)))
    ensures |quantities| > 0 ==> HasId(Load(AddAll(s, p, quantities)), p.id)
    ensures QuantityOf(Load(AddAll(s, p, quantities)), p.id) == QuantityOf(Load(s), p.id) + Total(quantities)
    ensures forall id :: id != p.id ==> QuantityOf(Load(AddAll(s, p, quantities)), id) == QuantityOf(Load(s), id)
    decreases |quantities|
  {
    if |quantities| > 0 {
      var s1 := AddToCart(s, p, quantities[0]);
      AddToCartKeepsValid(s, p, quantities[0]);
      AddToCartQuantities(s, p, quantities[0]);
      RepeatedAddsAccumulate(s1, p, quantities[1..]);
      if |quantities| == 1 {
        assert AddAll(s1, p, quantities[1..]) == s1;
      }
    }
  }

  /** window.updateCartCount: the badge shows the unit count when it is
      positive and is hidden otherwise (its text is left as it was). */
  function NavBadge(s: Slot): (shown: Option<int>)
    ensures shown.Some? ==> shown.value > 0
  {
    var total := Count(Load(s));
    if total > 0 then Some(total) else None
  }

  /** On a cart with positive quantities the badge is hidden exactly when the
      cart is empty, and otherwise shows the sum of the quantities. */
  lemma NavBadgeHiddenIffEmpty(s: Slot)
    requires PositiveQuantities(Load(s))
    ensures NavBadge(s).None? <==> |Load(s)| == 0
    ensures NavBadge(s).Some? ==> NavBadge(s).value == Count(Load(s))
  {
    CountAtLeastLength(Load(s));
  }

  /** addToCart saves the updated cart before refreshing the badge, so the
      badge shown afterwards already counts the units just added. */
  lemma AddToCartRefreshesBadge(s: Slot, p: Product, quantity: int)
    requires PositiveQuantities(Load(s))
    requires quantity >= 1
    ensures NavBadge(AddToCart(s, p, quantity)) == Some(Count(Load(s)) + quantity)
  {
    AddToCartCount(s, p, quantity);
    CountAtLeastLength(Load(s));
  }

  predicate InCatalog(catalog: seq<Product>, id: string) {
    exists p :: p in catalog && p.id == id
  }

  /** A grid card's add button: look the product up by the card's id and add
      one unit of it; do nothing when no catalog product has that id. */
  function GridAddClick(catalog: seq<Product>, cardId: string, s: Slot): (r: Slot)
    ensures !InCatalog(catalog, cardId) ==> r == s
    ensures InCatalog(catalog, cardId) ==> r.Saved? && HasId(Load(r), cardId)
    ensures InCatalog(catalog, cardId) && HasId(Load(s), cardId) ==>
              BumpedAt(Load(s), Load(r), FindIndex(Load(s), cardId).value, 1)
    ensures InCatalog(catalog, cardId) && !HasId(Load(s), cardId) ==>
              AppendedWith(Load(s), Load(r), ItemOf(FindProduct(catalog, cardId).value, 1))
  {
    match FindProduct(catalog, cardId)
    case None => s
    case Some(p) =>
      var r := AddToCart(s, p, 1);
      assert HasId(Load(s), p.id) ==> Load(r)[FindIndex(Load(s), p.id).value].id == p.id;
      assert !HasId(Load(s), p.id) ==> Load(r)[|Load(s)|].id == p.id;
      r
  }

  /** A grid add of a catalog product adds exactly one unit of that id and
      touches no other product's units. */
  lemma GridAddClickAddsOne(catalog: seq<Product>, cardId: string, s: Slot)
    requires UniqueIds(Load(s))
    requires InCatalog(catalog, cardId)
    ensures QuantityOf(Load(GridAddClick(catalog, cardId, s)), cardId) == QuantityOf(Load(s), cardId) + 1
    ensures forall id :: id != cardId ==> QuantityOf(Load(GridAddClick(catalog, cardId, s)), id) == QuantityOf(Load(s), id)
    ensures Valid(Load(s)) ==> Valid(Load(GridAddClick(catalog, cardId, s)))
  {
    var p := FindProduct(catalog, cardId).value;
    AddToCartQuantities(s, p, 1);
    AddToCartKeepsValid(s, p, 1);
  }
}

=== FILE: url.dfy ===
/** What the detail pages rely on from the browser's URL handling: the query
    text of a link (after the first '?', before any '#') and URLSearchParams'
    reading of it as application/x-www-form-urlencoded pairs — pieces between
    '&', empty pieces skipped, the name up to the first '=', '+' read as a
    space, and get(name) answering with the first pair of that name.
    Percent-escapes are not decoded in this model. */
module Url {

  /** split(ch)[0]: the text before the first ch, or all of it when there is none. */
  function Before(s: string, ch: char): (r: string)
    ensures |r| <= |s| && r == s[..|r|]
    ensures ch !in r
    ensures |r| < |s| ==> s[|r|] == ch
    ensures ch !in s ==> r == s
    ensures forall x :: x in r ==> x in s
  {
    if |s| == 0 || s[0] == ch then "" else [s[0]] + Before(s[1..], ch)
  }

  /** The text after the first ch, or "" when there is none. */
  function After(s: string, ch: char): (r: string)
    ensures |Before(s, ch)| < |s| ==> s == Before(s, ch) + [ch] + r
    ensures ch !in s ==> r == ""
  {
    var head := Before(s, ch);
    if |head| < |s| then
      assert s == head + [ch] + s[|head| + 1..];
      s[|head| + 1..]
    else ""
  }

  /** A prefix free of ch passes through Before unchanged. */
  lemma {:induction false} BeforeConcat(a: string, b: string, ch: char)
    requires ch !in a
    ensures Before(a + b, ch) == a + Before(b, ch)
  {
    if |a| > 0 {
      assert (a + b)[0] == a[0];
      assert (a + b)[1..] == a[1..] + b;
      BeforeConcat(a[1..], b, ch);
      assert a == [a[0]] + a[1..];
    } else {
      assert a + b == b;
    }
  }

  /** Cutting at the first ch gives back both sides when the left one is free of it. */
  lemma CutAt(a: string, b: string, ch: char)
    requires ch !in a
    ensures Before(a + [ch] + b, ch) == a
    ensures After(a + [ch] + b, ch) == b
  {
    BeforeConcat(a, [ch] + b, ch);
    assert a + [ch] + b == a + ([ch] + b);
    assert Before([ch] + b, ch) == "";
  }

  /** split(ch): the pieces between the occurrences of ch, in order. */
  function Split(s: string, ch: char): (parts: seq<string>)
    ensures |parts| >= 1 && parts[0] == Before(s, ch)
    ensures forall k :: 0 <= k < |parts| ==> ch !in parts[k]
    ensures ch !in s <==> |parts| == 1
    decreases |s|
  {
    var head := Before(s, ch);
    if |head| == |s| then [s] else [head] + Split(After(s, ch), ch)
  }

  /** join(ch): the pieces with ch between each two. */
  function Join(parts: seq<string>, ch: char): string
    requires |parts| >= 1
  {
    if |parts| == 1 then parts[0] else parts[0] + [ch] + Join(parts[1..], ch)
  }

  /** Splitting loses nothing: joining the pieces back gives the text. */
  lemma {:induction false} SplitJoin(s: string, ch: char)
    ensures Join(Split(s, ch), ch) == s
    decreases |s|
  {
    var head := Before(s, ch);
    if |head| < |s| {
      SplitJoin(After(s, ch), ch);
    }
  }

  /** Form decoding reads every '+' as a space. */
  function PlusToSpace(s: string): (r: string)
    ensures |r| == |s| && '+' !in r
    ensures r == s <==> '+' !in s
    ensures forall ch :: ch != ' ' && ch in r ==> ch in s
  {
    seq(|s|, k requires 0 <= k < |s| => if s[k] == '+' then ' ' else s[k])
  }

  /** Form decoding works piece by piece. */
  lemma PlusToSpaceConcat(a: string, b: string)
    ensures PlusToSpace(a + b) == PlusToSpace(a) + PlusToSpace(b)
  {
  }

  /** One non-empty piece as a name/value pair: the name up to the first '=',
      the value after it ("" when there is no '='). */
  function Pair(piece: string): (string, string) {
    (PlusToSpace(Before(piece, '=')), PlusToSpace(After(piece, '=')))
  }

  /** Reading "name=value" gives the pair back when the name holds no '='
      and neither side holds a '+'. */
  lemma PairRoundTrip(name: string, value: string)
    requires '=' !in name && '+' !in name && '+' !in value
    ensures Pair(name + "=" + value) == (name, value)
  {
    CutAt(name, value, '=');
  }

  /** The parsed query as get() sees it: one value per name. */
  type Query = map<string, string>

  /** The pieces read in order, an earlier pair of a name winning over a later one. */
  function Params(pieces: seq<string>): Query {
    if |pieces| == 0 then map[]
    else
      var rest := Params(pieces[1..]);
      if pieces[0] == "" then rest
      else rest[Pair(pieces[0]).0 := Pair(pieces[0]).1]
  }

  /** The names present are exactly those of the non-empty pieces. */
  lemma {:induction false} ParamsNames(pieces: seq<string>)
    ensures forall k :: 0 <= k < |pieces| && pieces[k] != "" ==> Pair(pieces[k]).0 in Params(pieces)
    ensures forall name :: name in Params(pieces) ==>
              exists k :: 0 <= k < |pieces| && pieces[k] != "" && Pair(pieces[k]).0 == name
  {
    if |pieces| > 0 {
      var tail := pieces[1..];
      ParamsNames(tail);
      assert forall k :: 1 <= k < |pieces| ==> pieces[k] == tail[k - 1];
      forall name | name in Params(pieces)
        ensures exists k :: 0 <= k < |pieces| && pieces[k] != "" && Pair(pieces[k]).0 == name
      {
        if pieces[0] == "" || name != Pair(pieces[0]).0 {
          assert name in Params(tail);
          var j :| 0 <= j < |tail| && tail[j] != "" && Pair(tail[j]).0 == name;
          assert pieces[j + 1] == tail[j];
        }
      }
    }
  }

  /** get(name) answers with the first pair of that name, whatever follows it. */
  lemma {:induction false} ParamsFirstWins(pieces: seq<string>, k: nat)
    requires k < |pieces| && pieces[k] != ""
    requires forall j :: 0 <= j < k && pieces[j] != "" ==> Pair(pieces[j]).0 != Pair(pieces[k]).0
    ensures Pair(pieces[k]).0 in Params(pieces) && Params(pieces)[Pair(pieces[k]).0] == Pair(pieces[k]).1
  {
    if k > 0 {
      var tail := pieces[1..];
      assert tail[k - 1] == pieces[k];
      forall j | 0 <= j < k - 1 && tail[j] != "" ensures Pair(tail[j]).0 != Pair(tail[k - 1]).0 {
        assert tail[j] == pieces[j + 1];
      }
      ParamsFirstWins(tail, k - 1);
    }
  }

  /** new URLSearchParams(search): the pieces between '&', read as pairs. */
  function ParseSearch(search: string): (q: Query)
    ensures '&' !in search && search != "" ==> q == map[Pair(search).0 := Pair(search).1]
  {
    var pieces := Split(search, '&');
    if '&' !in search && search != "" then
      assert pieces == [search];
      assert Params(pieces[1..]) == map[];
      Params(pieces)
    else Params(pieces)
  }

  /** A single "name=value" query reads back as exactly that parameter. */
  lemma SingleParam(name: string, value: string)
    requires '=' !in name && '+' !in name && '+' !in value
    requires '&' !in name && '&' !in value
    ensures ParseSearch(name + "=" + value) == map[name := value]
  {
    PairRoundTrip(name, value);
  }

  /** Two pieces free of '&' joined by one split back into those two. */
  lemma SplitTwo(first: string, second: string)
    requires '&' !in first && '&' !in second
    ensures Split(first + "&" + second, '&') == [first, second]
  {
    CutAt(first, second, '&');
    assert Split(second, '&') == [second];
  }

  /** A non-empty piece in front adds its pair over what the rest gives. */
  lemma ParamsCons(piece: string, rest: seq<string>)
    requires piece != ""
    ensures Params([piece] + rest) == Params(rest)[Pair(piece).0 := Pair(piece).1]
  {
    assert ([piece] + rest)[1..] == rest;
  }

  /** Two non-empty pieces of different names give both parameters. */
  lemma ParamsTwo(first: string, second: string)
    requires first != "" && second != "" && Pair(first).0 != Pair(second).0
    ensures Params([first, second]) == map[Pair(first).0 := Pair(first).1, Pair(second).0 := Pair(second).1]
  {
    ParamsCons(second, []);
    assert [second] + [] == [second];
    ParamsCons(first, [second]);
    assert [first] + [second] == [first, second];
  }

  /** "n1=v1&n2=v2" reads as two parameters when the names differ. */
  lemma TwoParams(n1: string, v1: string, n2: string, v2: string)
    requires '=' !in n1 && '=' !in n2 && n1 != n2
    requires '+' !in n1 && '+' !in v1 && '+' !in n2 && '+' !in v2
    requires '&' !in n1 && '&' !in v1 && '&' !in n2 && '&' !in v2
    ensures ParseSearch(n1 + "=" + v1 + "&" + (n2 + "=" + v2)) == map[n1 := v1, n2 := v2]
  {
    var first, second := n1 + "=" + v1, n2 + "=" + v2;
    assert '&' !in first && '&' !in second;
    SplitTwo(first, second);
    PairRoundTrip(n1, v1);
    PairRoundTrip(n2, v2);
    ParamsTwo(first, second);
  }

  /** window.location.search of a link, without its '?': the fragment starts
      at the first '#', and the query is what follows the first '?' before it. */
  function Search(href: string): (r: string)
    ensures '#' !in r
    ensures '?' !in href ==> r == ""
    ensures '#' in Before(href, '?') ==> r == ""
  {
    var t := Before(href, '#');
    var r := After(t, '?');
    assert forall x :: x in r ==> x in t by {
      if |Before(t, '?')| < |t| {
        assert r == t[|Before(t, '?')| + 1..];
      }
    }
    FragmentFirst(href);
    r
  }

  /** A '#' before the first '?' hides every '?' from the text before the '#'. */
  lemma FragmentFirst(href: string)
    ensures '#' in Before(href, '?') ==> '?' !in Before(href, '#')
  {
    var q, h := Before(href, '?'), Before(href, '#');
    if '#' in q {
      var j :| 0 <= j < |q| && q[j] == '#';
      assert href[j] == '#';
      assert forall k :: 0 <= k < |h| ==> h[k] != '#';
      assert |h| <= j;
      assert h == q[..|h|];
    }
  }

  /** The query text of "page?name=value": the name, '=' and the value cut
      at any '#', when the page part holds neither '?' nor '#'. */
  lemma SearchOfParam(page: string, name: string, value: string)
    requires '?' !in page && '#' !in page && '#' !in name && '=' !in name
    ensures Search(page + "?" + (name + "=" + value)) == name + "=" + Before(value, '#')
  {
    var head := page + "?" + (name + "=");
    assert '#' !in head;
    assert page + "?" + (name + "=" + value) == head + value;
    BeforeConcat(head, value, '#');
    assert head + Before(value, '#') == page + "?" + (name + "=" + Before(value, '#'));
    CutAt(page, name + "=" + Before(value, '#'), '?');
  }

  /** A piece "name=value" with a name free of '=' reads as that name and value. */
  lemma PairOfParam(name: string, value: string)
    requires '=' !in name
    ensures Pair(name + "=" + value) == (PlusToSpace(name), PlusToSpace(value))
  {
    CutAt(name, value, '=');
  }

  /** The query of "page?query" is the query itself when the page part holds
      neither '?' nor '#', and the query no '#'. */
  lemma SearchOfLink(page: string, query: string)
    requires '?' !in page && '#' !in page && '#' !in query
    ensures Search(page + "?" + query) == query
  {
    assert '#' !in page + "?" + query;
    CutAt(page, query, '?');
  }
}
